=== FILE: README.md ===
# DrawingApp in Dafny

A model of the paint window in `drawing_app.py`: a single `DrawingApp` object
whose canvas handlers draw freehand strokes, whose toolbar changes the pen
colour and brush size or clears the drawing, and whose save button writes the
bitmap to a `.png` path.

The tkinter canvas and the PIL bitmap are modelled as append-only logs of line
segments (`Drawing.Segment`: two endpoints, a colour, a width). `screen` is what
`create_line` put on the canvas and `image.lines` is what `ImageDraw.line` drew
into the bitmap. The dialogs are inputs: the colour picker's pair, the label
chosen in the size menu, and the name typed in the save dialog. A save is a
value, a `Write(path, image)`, rather than a file write.

Modules:

- `Options` (`options.dfy`): `Option`, which stands for Python's `None` or a present value.
- `Decimal` (`decimal.dfy`): `str(n)` for the menu labels and `int(s)` for the chosen label.
- `SavePath` (`save_path.dfy`): the `.png` suffix rule of `save_image`.
- `Drawing` (`drawing.dfy`): the app's state and one pure function per handler.
  It also holds the invariant `Consistent`: every `create_line` call on the
  screen was matched by an `ImageDraw.line` call on the bitmap with the same
  endpoints, colour argument and width, and the bitmap is a 600×400 RGB image on
  white. This is agreement of the draw calls, not of the pixels; see `Drawing.Consistent`
  under "Left out".
- `Strokes` (`strokes.dfy`): event sequences replayed through the handlers in
  order, as the event loop delivers them. This module holds the stroke lemmas.

`drawing_app.py` has no cancel guard, no previous-colour slot and no eraser. The
model follows it:

- Cancelling the colour picker stores the picker's `None` as the pen colour. The
  pen is not left unchanged.
- There is no previous-colour slot, no eraser and no revert.
- The brush size is whatever `int` makes of the menu label. It is not checked
  against the offered sizes.

## Model

| member | source | states |
|---|---|---|
| `Decimal.DecimalString` | drawing_app.py:51-53 | `str(size)` for a menu entry is a non-empty run of digits with no leading zero, and it is one digit exactly when the size is below 10 |
| `Decimal.ParseInt` | drawing_app.py:63 | `int(s)` fails on the empty string; any success ends in a digit; a digit run, with or without a leading `+` or `-`, parses to its decimal value, leading zeros included, with the sign applied |
| `Decimal.DigitsValueIgnoresLeadingZeros` | drawing_app.py:63 | leading zeros do not change the value of a digit run |
| `Decimal.ParseZeroPadded` | drawing_app.py:63 | `int` reads any zero-padded decimal as its number, unsigned or with either sign: `int("007") == 7`, `int("-007") == -7` |
| `Decimal.DigitsValueOfDecimalString` | drawing_app.py:52-63 | reading back the digits that `str(n)` wrote gives `n` again |
| `Decimal.ParseDecimalString` | drawing_app.py:63 | `int(str(n)) == n`, `int("-" + str(n)) == -n` and `int("+" + str(n)) == n` for every natural `n` |
| `Decimal.ParseRejectsStrayCharacter` | drawing_app.py:63 | a character that is neither a digit nor a leading sign makes `int` raise |
| `SavePath.Normalise` | drawing_app.py:111-112 | the written name always ends in `.png` and extends the chosen name; it equals the chosen name exactly when that name already ends in `.png`; otherwise exactly `.png` is added |
| `SavePath.NormaliseIdempotent` | drawing_app.py:111-112 | normalising twice is the same as normalising once |
| `SavePath.NormaliseAddsAtMostExtension` | drawing_app.py:111-112 | the name grows by nothing or by the four characters of `.png` |
| `SavePath.NormaliseExamples` | drawing_app.py:111-112 | `"drawing"` is written as `"drawing.png"`, and `"drawing.png"` is written unchanged |
| `SavePath.NormaliseIsCaseSensitive` | drawing_app.py:111 | the suffix test is case-sensitive: `"x.PNG"` is written as `"x.PNG.png"` |
| `Drawing.SizeLabels` | drawing_app.py:51-53 | the menu shows one label per offered size |
| `Drawing.Init` | drawing_app.py:19-29 | at start there is no last point, the pen is `'black'`, the brush is the first offered size, nothing is on the screen, and the bitmap is blank white 600×400; screen and bitmap agree |
| `Drawing.Paint` | drawing_app.py:65-79 | a drag with no last point draws nothing; a drag with a last point draws exactly one segment from it to the event point, in the current pen and brush, on both the screen and the bitmap; either way the event point becomes the last point and colour and size are unchanged |
| `Drawing.Reset` | drawing_app.py:81-87 | a release forgets the last point and changes nothing else: no drawing, same colour, same size |
| `Drawing.ClearCanvas` | drawing_app.py:89-95 | clearing empties the screen and installs a blank white 600×400 bitmap, which restores agreement; the last point, colour and size are untouched |
| `Drawing.UpdateBrushSize` | drawing_app.py:57-63 | the brush becomes `int(choice)` when that parses, and nothing else changes; the update fails exactly when `int` raises |
| `Drawing.ChooseColour` | drawing_app.py:97-101 | the pen becomes the picker's second result with no cancel guard; nothing else changes |
| `Drawing.SaveImage` | drawing_app.py:103-114 | an empty name writes nothing; any other name writes the current bitmap to the normalised path: the chosen name itself when it already ends in `.png`, otherwise the chosen name with exactly `.png` appended |
| `Drawing.InitialToolState` | drawing_app.py:29-52 | the menu labels are exactly `"1"`, `"2"`, `"5"`, `"10"`; the offered sizes are the set {1, 2, 5, 10}; the default label parses to the initial brush size |
| `Drawing.MenuLabelSetsSize` | drawing_app.py:51-63 | choosing the i-th menu label sets the brush to the i-th offered size and changes nothing else |
| `Drawing.CancelledPickerClearsPen` | drawing_app.py:101 | a cancelled picker leaves the pen `None` |
| `Drawing.PickForgetsEarlierPen` | drawing_app.py:101 | the state after a pick does not depend on the earlier pen colour, so there is no way back to it |
| `Drawing.ClearThenSaveWritesBlank` | drawing_app.py:89-113 | saving right after a clear writes a blank white 600×400 bitmap, whatever was drawn before |
| `Strokes.Chain` | drawing_app.py:71-79 | a polyline through N ≥ 1 points has exactly N − 1 segments |
| `Strokes.ChainSegments` | drawing_app.py:71-79 | segment k of a polyline runs from point k to point k + 1, so each segment ends where the next begins |
| `Strokes.Step` | drawing_app.py:31-63 | each bound event (drag, release, clear, colour pick, save, menu choice) goes to its handler: a drag with a held point adds the segment from it in the current pen and brush, and holds the drag's point; a release holds no point; a clear leaves an empty screen and a blank bitmap; a colour pick sets the pen to the picker's second result; only a colour pick changes the pen, only a menu choice changes the brush, only a drag or a clear changes the drawing; no toolbar action changes the held point, so none breaks a stroke; a save changes no state; a menu label that `int` rejects leaves the whole state unchanged, and an accepted one changes only the brush to `int(choice)` |
| `Strokes.Replay` | drawing_app.py:31-32 | one event replayed is that event's handler; after a sequence ending in a release no point is held, and after one ending in a drag that drag's point is held |
| `Strokes.ToolsChangeOnlyByToolbar` | drawing_app.py:57-101 | across any event sequence without a colour pick the pen is unchanged, and without a menu choice the brush is unchanged |
| `Strokes.ReplayAppend` | drawing_app.py:31-32 | handling two event sequences one after the other is the same as handling their concatenation |
| `Strokes.StepPreservesConsistent` | drawing_app.py:65-101 | every handler keeps the screen's draw calls and the bitmap's draw calls equal, and the bitmap 600×400 RGB on white |
| `Strokes.SaveAnywhereWritesScreen` | drawing_app.py:103-114 | a save with a chosen name, at any point of any event sequence, writes a 600×400 white bitmap whose lines are exactly the lines on the screen at that moment |
| `Strokes.ReplayPreservesConsistent` | drawing_app.py:65-101 | any sequence of events keeps the screen's and the bitmap's draw calls equal |
| `Strokes.DragsFromPoint` | drawing_app.py:65-79 | while a last point is held, K drag samples append exactly the K segments that continue the polyline from that point, to the screen and to the bitmap alike |
| `Strokes.StrokeSegments` | drawing_app.py:65-79 | from no last point, a stroke of N ≥ 1 samples appends exactly N − 1 joined segments in the current colour and size; earlier drawing is kept and the last sample is remembered |
| `Strokes.StrokeThenRelease` | drawing_app.py:65-87 | a stroke and its release leave the N − 1 segments, no last point, and the same colour and size |
| `Strokes.TwoStrokes` | drawing_app.py:65-87 | a release between two strokes means no segment joins the end of the first to the start of the second, on the screen and in the bitmap alike |
| `Strokes.MidStrokeToolChange` | drawing_app.py:57-101 | a colour pick or size change during a stroke keeps the stroke going: earlier segments keep the old colour and width, and the bridging segment and later ones use the new ones, on the screen and in the bitmap alike |
| `Strokes.NoClearKeepsDrawing` | drawing_app.py:65-101 | without a clear, the earlier screen and bitmap contents are prefixes of the later ones |

## Left out

- Widget construction and layout (`setup_ui` apart from the size list): tkinter plumbing with no state of its own.
- Rasterisation: segments are log entries, not pixels. `create_line`'s round caps and smoothing and PIL's line drawing are library behaviour.
- `Drawing.Consistent`: states that both libraries received the same endpoints, colour argument and width, not that the screen and the saved PNG show the same pixels. After a cancelled colour picker the pen is `None` and `paint` passes `fill=None` to both calls (drawing_app.py:72-76). tkinter leaves an option whose value is `None` out of the call, so Tk draws in its default line colour, black. PIL's `line` with `fill=None` uses the drawing object's own default ink. So in that state what is visible and what is saved can differ, and the model does not rule that out. The libraries' code is not part of this model.
- The dialogs themselves: the colour chooser, the save dialog and the message box are external UI. Their results are parameters. The current pen passed to the chooser as its initial colour is not modelled.
- The PNG encoding and the file write (`self.image.save`): library I/O. A save is a `Write` value, and write failures are not modelled.
- `signal_handler`, `main` and the event loop's exception handler (drawing_app.py:117-138): process plumbing.
- `last_x` and `last_y` are one optional point. The source always assigns them together, so its test of both for `None` is the same as testing one.
- `Strokes.Step`: a menu label that `int` rejects leaves the state unchanged. This is how tkinter handles an exception in a callback: the exception is reported and the loop goes on. That tkinter code is not part of this model. Only the offered labels reach this handler through the menu.
- `Decimal.ParseInt`: accepts only an optional `+`/`-` sign followed by ASCII digits. Python's `int` also strips surrounding whitespace, allows `_` between digits and accepts non-ASCII decimal digits. None of these reach the handler from the menu.
- `Drawing.SaveImage`: the chosen name is modelled as a string. A cancelled dialog may also return an empty tuple, which is falsy like the empty string.

=== FILE: decimal.dfy ===
/**
  Decimal text for integers: Python's `str(n)` on the brush sizes offered in the
  size menu, and Python's `int(s)` on the label the menu hands back.
 */
module Decimal {
  import opened Options

  predicate IsDigit(c: char) {
    '0' <= c <= '9'
  }

  /** A non-empty run of ASCII decimal digits. */
  predicate IsDigits(s: string) {
    |s| > 0 && forall i :: 0 <= i < |s| ==> IsDigit(s[i])
  }

  function DigitValue(c: char): (d: nat)
    requires IsDigit(c)
    ensures d < 10
  {
    (c as int - '0' as int) as nat
  }

  function DigitChar(d: nat): (c: char)
    requires d < 10
    ensures IsDigit(c) && DigitValue(c) == d
  {
    ('0' as int + d) as char
  }

  /** The value of a digit run read most significant digit first. */
  function DigitsValue(s: string): nat
    requires forall i :: 0 <= i < |s| ==> IsDigit(s[i])
  {
    if |s| == 0 then 0 else DigitsValue(s[..|s| - 1]) * 10 + DigitValue(s[|s| - 1])
  }

  /** Python's `str(n)` for a natural number: canonical digits, no leading zero. */
  function DecimalString(n: nat): (s: string)
    ensures IsDigits(s)
    ensures s[0] == '0' ==> n == 0
    ensures n < 10 <==> |s| == 1
  {
    if n < 10 then [DigitChar(n)] else DecimalString(n / 10) + [DigitChar(n % 10)]
  }

  /**
    Python's `int(s)` restricted to an optional sign followed by ASCII digits;
    `None` where `int` raises `ValueError`.
   */
  function ParseInt(s: string): (r: Option<int>)
    ensures s == [] ==> r == None
    ensures r.Some? ==> IsDigit(s[|s| - 1])
    ensures IsDigits(s) ==> r == Some(DigitsValue(s) as int)
    ensures |s| > 1 && s[0] == '-' && IsDigits(s[1..]) ==> r == Some(-(DigitsValue(s[1..]) as int))
    ensures |s| > 1 && s[0] == '+' && IsDigits(s[1..]) ==> r == Some(DigitsValue(s[1..]) as int)
    ensures r.Some? && r.value < 0 ==> s[0] == '-'
  {
    if |s| > 0 && (s[0] == '+' || s[0] == '-') then
      if IsDigits(s[1..]) then
        var magnitude: int := DigitsValue(s[1..]);
        Some(if s[0] == '-' then -magnitude else magnitude)
      else
        None
    else if IsDigits(s) then
      Some(DigitsValue(s))
    else
      None
  }

  /** Reading back the digits `str` wrote gives the number again. */
  lemma {:induction false} DigitsValueOfDecimalString(n: nat)
    ensures DigitsValue(DecimalString(n)) == n
  {
    var s := DecimalString(n);
    if n >= 10 {
      DigitsValueOfDecimalString(n / 10);
      assert s[..|s| - 1] == DecimalString(n / 10);
      assert s[|s| - 1] == DigitChar(n % 10);
    }
  }

  /** `int(str(n)) == n`, and `int("-" + str(n)) == -n`. */
  lemma ParseDecimalString(n: nat)
    ensures ParseInt(DecimalString(n)) == Some(n as int)
    ensures ParseInt("-" + DecimalString(n)) == Some(-(n as int))
    ensures ParseInt("+" + DecimalString(n)) == Some(n as int)
  {
    DigitsValueOfDecimalString(n);
    var s := DecimalString(n);
    assert IsDigit(s[0]);
    assert ("-" + s)[0] == '-' && ("-" + s)[1..] == s;
    assert ("+" + s)[0] == '+' && ("+" + s)[1..] == s;
  }

  /** A run of `'0'` characters. */
  predicate IsZeros(z: string) {
    forall i :: 0 <= i < |z| ==> z[i] == '0'
  }

  /** Leading zeros do not change the value of a digit run. */
  lemma {:induction false} DigitsValueIgnoresLeadingZeros(z: string, t: string)
    requires IsZeros(z)
    requires forall i :: 0 <= i < |t| ==> IsDigit(t[i])
    ensures DigitsValue(z + t) == DigitsValue(t)
    decreases |t| + |z|
  {
    if t == [] {
      assert z + t == z;
      if z != [] {
        assert z[..|z| - 1] + [] == z[..|z| - 1];
        DigitsValueIgnoresLeadingZeros(z[..|z| - 1], []);
      }
    } else {
      var u := z + t;
      assert u[..|u| - 1] == z + t[..|t| - 1];
      assert u[|u| - 1] == t[|t| - 1];
      DigitsValueIgnoresLeadingZeros(z, t[..|t| - 1]);
    }
  }

  /** `int` reads any zero-padded decimal, signed or not, as its number: `int("007") == 7`, `int("-007") == -7`. */
  lemma ParseZeroPadded(z: string, n: nat)
    requires IsZeros(z)
    ensures ParseInt(z + DecimalString(n)) == Some(n as int)
    ensures ParseInt("-" + z + DecimalString(n)) == Some(-(n as int))
    ensures ParseInt("+" + z + DecimalString(n)) == Some(n as int)
  {
    var t := DecimalString(n);
    DigitsValueIgnoresLeadingZeros(z, t);
    DigitsValueOfDecimalString(n);
    var u := z + t;
    assert IsDigits(u) by {
      forall i | 0 <= i < |u|
        ensures IsDigit(u[i])
      {
        if i < |z| { assert u[i] == z[i]; } else { assert u[i] == t[i - |z|]; }
      }
    }
    assert ("-" + z + t)[0] == '-' && ("-" + z + t)[1..] == u;
    assert ("+" + z + t)[0] == '+' && ("+" + z + t)[1..] == u;
  }

  /** A character that is neither a digit nor a leading sign makes `int` raise. */
  lemma ParseRejectsStrayCharacter(s: string, i: nat)
    requires i < |s| && !IsDigit(s[i])
    requires i == 0 ==> s[0] != '+' && s[0] != '-'
    ensures ParseInt(s) == None
  {
    if |s| > 0 && (s[0] == '+' || s[0] == '-') {
      assert i > 0;
      assert s[1..][i - 1] == s[i];
    }
  }
}

=== FILE: drawing.dfy ===
/**
  The state of the paint window and the handlers that change it.

  The tkinter canvas and the PIL image are both modelled as append-only logs of
  line segments: `screen` holds what `create_line` put on the canvas,
  `image.lines` what `ImageDraw.line` drew into the bitmap. Dialogs are inputs.
 */
module Drawing {
  import opened Options
  import Decimal
  import SavePath

  const CanvasWidth: nat := 600
  const CanvasHeight: nat := 400
  const ImageMode: string := "RGB"
  const Background: string := "white"
  const DefaultPen: string := "black"

  /** The sizes offered by the brush-size menu, in menu order. */
  const BrushSizes: seq<nat> := [1, 2, 5, 10]

  /** The menu labels, `str` of each offered size. */
  function SizeLabels(): (labels: seq<string>)
    ensures |labels| == |BrushSizes|
  {
    seq(|BrushSizes|, i requires 0 <= i < |BrushSizes| => Decimal.DecimalString(BrushSizes[i]))
  }

  /** A pointer position in canvas pixels; a drag may leave the canvas, so either may be negative. */
  datatype Point = Point(x: int, y: int)

  /** A pen colour as the source holds it: a colour string, or `None` after a cancelled picker. */
  type Colour = Option<string>

  /** One committed line: endpoints, fill colour and width. */
  datatype Segment = Segment(from: Point, to: Point, colour: Colour, width: int)

  /** The PIL bitmap: mode, size, background fill, and the lines drawn into it since it was made. */
  datatype Image = Image(mode: string, width: nat, height: nat, fill: string, lines: seq<Segment>)

  /** The fields of `DrawingApp` that the handlers read and write. */
  datatype App = App(last: Option<Point>, pen: Colour, brush: int, screen: seq<Segment>, image: Image)

  /** What the colour dialog returns: an RGB triple and a hex string, both `None` on cancel. */
  type Picked = (Option<(int, int, int)>, Option<string>)

  /** A file write requested by `save_image`: the path and the bitmap written there. */
  datatype Write = Write(path: string, image: Image)

  /** `Image.new("RGB", (600, 400), "white")`. */
  function BlankImage(): Image {
    Image(ImageMode, CanvasWidth, CanvasHeight, Background, [])
  }

  /** A fresh white 600×400 RGB bitmap with nothing drawn on it. */
  predicate IsBlank(img: Image) {
    img.mode == ImageMode && img.width == CanvasWidth && img.height == CanvasHeight
    && img.fill == Background && img.lines == []
  }

  /**
    The screen and the bitmap agree: every line on the canvas was drawn into the
    image with the same geometry, colour and width, and the image has the canvas size.
   */
  predicate Consistent(a: App) {
    a.screen == a.image.lines
    && a.image.mode == ImageMode && a.image.width == CanvasWidth && a.image.height == CanvasHeight
    && a.image.fill == Background
  }

  /** Draws one segment on the canvas and into the bitmap. */
  function Commit(a: App, s: Segment): App {
    a.(screen := a.screen + [s], image := a.image.(lines := a.image.lines + [s]))
  }

  /** The state right after `DrawingApp.__init__`. */
  function Init(): (a: App)
    ensures Consistent(a)
    ensures a.last == None && a.screen == [] && IsBlank(a.image)
    ensures a.pen == Some(DefaultPen)
    ensures a.brush == BrushSizes[0]
  {
    App(None, Some(DefaultPen), 1, [], BlankImage())
  }

  /** The `<B1-Motion>` handler `paint`. */
  function Paint(a: App, p: Point): (r: App)
    ensures r.last == Some(p)
    ensures r.pen == a.pen && r.brush == a.brush
    ensures a.last == None ==> r.screen == a.screen && r.image == a.image
    ensures a.last != None ==>
      && |r.screen| == |a.screen| + 1
      && r.screen[..|a.screen|] == a.screen
      && r.screen[|a.screen|] == Segment(a.last.value, p, a.pen, a.brush)
    ensures a.last != None ==>
      r.image == a.image.(lines := a.image.lines + [Segment(a.last.value, p, a.pen, a.brush)])
    ensures Consistent(a) ==> Consistent(r)
  {
    var drawn := if a.last.Some? then Commit(a, Segment(a.last.value, p, a.pen, a.brush)) else a;
    drawn.(last := Some(p))
  }

  /** The `<ButtonRelease-1>` handler `reset`: forgets the last point and nothing else. */
  function Reset(a: App): (r: App)
    ensures r.last == None
    ensures r.pen == a.pen && r.brush == a.brush
    ensures r.screen == a.screen && r.image == a.image
  {
    a.(last := None)
  }

  /** `clear_canvas`: deletes every canvas item and replaces the bitmap with a blank one. */
  function ClearCanvas(a: App): (r: App)
    ensures r.screen == [] && IsBlank(r.image)
    ensures Consistent(r)
    ensures r.last == a.last && r.pen == a.pen && r.brush == a.brush
  {
    a.(screen := [], image := BlankImage())
  }

  /**
    `update_brush_size`: the brush becomes `int(choice)`. `None` is the
    `ValueError` that `int` raises, in which case no field was assigned.
   */
  function UpdateBrushSize(a: App, choice: string): (r: Option<App>)
    ensures r.Some? <==> Decimal.ParseInt(choice).Some?
    ensures r.Some? ==> r.value.brush == Decimal.ParseInt(choice).value
    ensures r.Some? ==>
      && r.value.last == a.last && r.value.pen == a.pen
      && r.value.screen == a.screen && r.value.image == a.image
  {
    match Decimal.ParseInt(choice)
    case Some(n) => Some(a.(brush := n))
    case None => None
  }

  /** `choose_color`: the pen becomes the dialog's second result, whatever it is. */
  function ChooseColour(a: App, picked: Picked): (r: App)
    ensures r.pen == picked.1
    ensures r.last == a.last && r.brush == a.brush
    ensures r.screen == a.screen && r.image == a.image
  {
    a.(pen := picked.1)
  }

  /**
    `save_image` given the name chosen in the dialog: nothing for an empty name
    (the dialog was cancelled), otherwise the current bitmap under the normalised name.
   */
  function SaveImage(a: App, chosen: string): (w: Option<Write>)
    ensures w == None <==> chosen == []
    ensures w.Some? ==> w.value.image == a.image
    ensures w.Some? ==> SavePath.EndsWith(w.value.path, SavePath.Extension)
    ensures w.Some? ==> chosen <= w.value.path
    ensures w.Some? ==> w.value.path == SavePath.Normalise(chosen)
    ensures w.Some? && !SavePath.EndsWith(chosen, SavePath.Extension) ==> w.value.path == chosen + SavePath.Extension
    ensures w.Some? && SavePath.EndsWith(chosen, SavePath.Extension) ==> w.value.path == chosen
  {
    if chosen == [] then None else Some(Write(SavePath.Normalise(chosen), a.image))
  }

  /** The menu shows `1, 2, 5, 10`; its default label is the first, and that is the initial brush. */
  lemma InitialToolState()
    ensures SizeLabels() == ["1", "2", "5", "10"]
    ensures Decimal.ParseInt(SizeLabels()[0]) == Some(Init().brush)
    ensures (set s | s in BrushSizes) == {1, 2, 5, 10}
  {
    var labels := SizeLabels();
    assert labels[3] == Decimal.DecimalString(10) == "10";
    Decimal.ParseDecimalString(1);
    assert (set s | s in BrushSizes) == {1, 2, 5, 10} by {
      assert BrushSizes[0] == 1 && BrushSizes[1] == 2 && BrushSizes[2] == 5 && BrushSizes[3] == 10;
    }
  }

  /** Choosing any label from the menu sets the brush to the size it shows. */
  lemma {:induction false} MenuLabelSetsSize(a: App, i: nat)
    requires i < |BrushSizes|
    ensures UpdateBrushSize(a, SizeLabels()[i]) == Some(a.(brush := BrushSizes[i]))
  {
    Decimal.ParseDecimalString(BrushSizes[i]);
  }

  /** A cancelled colour dialog leaves the pen colour `None`; there is no guard. */
  lemma CancelledPickerClearsPen(a: App)
    ensures ChooseColour(a, (None, None)).pen == None
  {
  }

  /** There is no previous-colour slot: after a pick, the earlier pen colour is gone. */
  lemma PickForgetsEarlierPen(a: App, earlier: Colour, picked: Picked)
    ensures ChooseColour(a, picked) == ChooseColour(a.(pen := earlier), picked)
  {
  }

  /** Saving after clearing writes a blank white 600×400 bitmap, whatever was drawn. */
  lemma ClearThenSaveWritesBlank(a: App, chosen: string)
    requires chosen != []
    ensures SaveImage(ClearCanvas(a), chosen).Some?
    ensures IsBlank(SaveImage(ClearCanvas(a), chosen).value.image)
  {
  }
}

=== FILE: options.dfy ===
/** The optional value used throughout the model: Python's `None` versus a present value. */
module Options {

  /** `None` stands for Python's `None`; `Some(v)` for a present value `v`. */
  datatype Option<+T> = None | Some(value: T) {

    /** The value when present, otherwise `default`. */
    function GetOr(default: T): T {
      match this
      case Some(v) => v
      case None => default
    }
  }
}

=== FILE: save_path.dfy ===
/**
  The path handling of `save_image`: a cancelled dialog writes nothing, a path
  that already ends in `.png` is kept, any other path gets `.png` appended.
 */
module SavePath {

  const Extension: string := ".png"

  /** Python's `str.endswith`: case-sensitive, character for character. */
  predicate EndsWith(s: string, suffix: string) {
    |suffix| <= |s| && s[|s| - |suffix|..] == suffix
  }

  /** The name actually written for a non-empty name chosen in the save dialog. */
  function Normalise(p: string): (r: string)
    ensures EndsWith(r, Extension)
    ensures p <= r
    ensures r == p <==> EndsWith(p, Extension)
    ensures r != p ==> r[|p|..] == Extension
  {
    if EndsWith(p, Extension) then p else p + Extension
  }

  /** Normalising a normalised name changes nothing. */
  lemma NormaliseIdempotent(p: string)
    ensures Normalise(Normalise(p)) == Normalise(p)
  {
  }

  /** Normalising adds either nothing or exactly the four characters of `.png`. */
  lemma NormaliseAddsAtMostExtension(p: string)
    ensures |Normalise(p)| == |p| || |Normalise(p)| == |p| + |Extension|
  {
  }

  /** `"drawing"` is saved as `"drawing.png"`; `"drawing.png"` is saved as itself. */
  lemma NormaliseExamples()
    ensures Normalise("drawing") == "drawing.png"
    ensures Normalise("drawing.png") == "drawing.png"
  {
    assert !EndsWith("drawing", Extension) by {
      assert "drawing"[3..] != Extension by { assert "drawing"[3..][0] == 'w'; }
    }
    assert EndsWith("drawing.png", Extension) by {
      assert "drawing.png"[7..] == Extension;
    }
  }

  /** The suffix test is case-sensitive: `"x.PNG"` gets a second extension. */
  lemma NormaliseIsCaseSensitive()
    ensures Normalise("x.PNG") == "x.PNG.png"
  {
    assert !EndsWith("x.PNG", Extension) by {
      assert "x.PNG"[1..][1] == 'P';
    }
  }
}

=== FILE: strokes.dfy ===
/**
  Sequences of window events fed to the handlers one at a time, as tkinter's
  event loop delivers them, and what a stroke leaves on the canvas.
 */
module Strokes {
  import opened Options
  import opened Drawing
  import Decimal

  /**
    The events bound in the window: a drag sample, a release, and the four
    toolbar actions (clear, pick colour, save, choose size) with their dialog results.
   */
  datatype Event =
    | Drag(p: Point)
    | Release
    | Clear
    | PickColour(picked: Picked)
    | Save(chosen: string)
    | SelectSize(choice: string)

  /**
    One event through its handler. A menu choice that `int` rejects raises inside
    the callback before any field is assigned, so the state stays as it was.
   */
  function Step(a: App, e: Event): (r: App)
    ensures e.SelectSize? && Decimal.ParseInt(e.choice).None? ==> r == a
    ensures e.SelectSize? && Decimal.ParseInt(e.choice).Some? ==> r == a.(brush := Decimal.ParseInt(e.choice).value)
    ensures !e.PickColour? ==> r.pen == a.pen
    ensures !e.SelectSize? ==> r.brush == a.brush
    ensures !e.Drag? && !e.Clear? ==> r.screen == a.screen && r.image == a.image
    ensures e.Drag? ==> r.last == Some(e.p)
    ensures e.Release? ==> r.last == None
    ensures !e.Drag? && !e.Release? ==> r.last == a.last
    ensures e.Save? ==> r == a
    ensures e.Clear? ==> r.screen == [] && IsBlank(r.image)
    ensures e.PickColour? ==> r.pen == e.picked.1
    ensures e.Drag? && a.last.Some? ==> r.screen == a.screen + [Segment(a.last.value, e.p, a.pen, a.brush)]
  {
    match e
    case Drag(p) => Paint(a, p)
    case Release => Reset(a)
    case Clear => ClearCanvas(a)
    case PickColour(picked) => ChooseColour(a, picked)
    case Save(_) => a
    case SelectSize(choice) => UpdateBrushSize(a, choice).GetOr(a)
  }

  /**
    The events in order, each handled in the state the previous one left. The
    last event decides whether a point is held.
   */
  function Replay(a: App, evs: seq<Event>): (r: App)
    ensures |evs| == 1 ==> r == Step(a, evs[0])
    ensures evs != [] && evs[|evs| - 1].Release? ==> r.last == None
    ensures evs != [] && evs[|evs| - 1].Drag? ==> r.last == Some(evs[|evs| - 1].p)
    decreases |evs|
  {
    if evs == [] then a else Replay(Step(a, evs[0]), evs[1..])
  }

  /** One drag sample per point, in order. */
  function Drags(ps: seq<Point>): (evs: seq<Event>)
    ensures |evs| == |ps|
  {
    if ps == [] then [] else [Drag(ps[0])] + Drags(ps[1..])
  }

  /**
    The polyline through `pts` as separate segments, all in colour `c` and width
    `w`: one per pair of consecutive points.
   */
  function Chain(pts: seq<Point>, c: Colour, w: int): (r: seq<Segment>)
    ensures |pts| == 0 ==> |r| == 0
    ensures |pts| > 0 ==> |r| == |pts| - 1
  {
    if |pts| < 2 then [] else [Segment(pts[0], pts[1], c, w)] + Chain(pts[1..], c, w)
  }

  /** The k-th segment of a chain runs from the k-th point to the next, so consecutive segments join. */
  lemma {:induction false} ChainSegments(pts: seq<Point>, c: Colour, w: int)
    ensures forall k :: 0 <= k < |Chain(pts, c, w)| ==> Chain(pts, c, w)[k] == Segment(pts[k], pts[k + 1], c, w)
    ensures forall k :: 0 <= k < |Chain(pts, c, w)| - 1 ==>
      Chain(pts, c, w)[k].to == Chain(pts, c, w)[k + 1].from
    decreases |pts|
  {
    if |pts| >= 2 {
      ChainSegments(pts[1..], c, w);
      var r := Chain(pts, c, w);
      forall k | 0 <= k < |r|
        ensures r[k] == Segment(pts[k], pts[k + 1], c, w)
      {
        if k > 0 {
          assert r[k] == Chain(pts[1..], c, w)[k - 1];
        }
      }
    }
  }

  /** Replaying two event sequences one after the other is replaying their concatenation. */
  lemma {:induction false} ReplayAppend(a: App, xs: seq<Event>, ys: seq<Event>)
    ensures Replay(a, xs + ys) == Replay(Replay(a, xs), ys)
    decreases |xs|
  {
    if xs == [] {
      assert xs + ys == ys;
    } else {
      assert xs + ys != [];
      assert (xs + ys)[0] == xs[0];
      assert (xs + ys)[1..] == xs[1..] + ys;
      ReplayAppend(Step(a, xs[0]), xs[1..], ys);
    }
  }

  /** Only colour picks change the pen, and only menu choices change the brush. */
  lemma {:induction false} ToolsChangeOnlyByToolbar(a: App, evs: seq<Event>)
    ensures (forall i :: 0 <= i < |evs| ==> !evs[i].PickColour?) ==> Replay(a, evs).pen == a.pen
    ensures (forall i :: 0 <= i < |evs| ==> !evs[i].SelectSize?) ==> Replay(a, evs).brush == a.brush
    decreases |evs|
  {
    if evs != [] {
      ToolsChangeOnlyByToolbar(Step(a, evs[0]), evs[1..]);
      assert forall i :: 0 <= i < |evs[1..]| ==> evs[1..][i] == evs[i + 1];
    }
  }

  /** Every handler keeps the canvas and the bitmap in agreement. */
  lemma StepPreservesConsistent(a: App, e: Event)
    requires Consistent(a)
    ensures Consistent(Step(a, e))
  {
  }

  /** Any sequence of events keeps the canvas and the bitmap in agreement. */
  lemma {:induction false} ReplayPreservesConsistent(a: App, evs: seq<Event>)
    requires Consistent(a)
    ensures Consistent(Replay(a, evs))
    decreases |evs|
  {
    if evs != [] {
      StepPreservesConsistent(a, evs[0]);
      ReplayPreservesConsistent(Step(a, evs[0]), evs[1..]);
    }
  }

  /**
    A save at any point of a session writes a bitmap holding exactly the lines on
    the screen at that moment, in a 600×400 white RGB image.
   */
  lemma SaveAnywhereWritesScreen(a: App, evs: seq<Event>, chosen: string)
    requires Consistent(a) && chosen != []
    ensures var w := SaveImage(Replay(a, evs), chosen);
      && w.Some?
      && w.value.image.lines == Replay(a, evs).screen
      && w.value.image.width == CanvasWidth && w.value.image.height == CanvasHeight
      && w.value.image.fill == Background
  {
    ReplayPreservesConsistent(a, evs);
  }

  /** The state after a stroke continues from `q` through `ps`: one new segment per sample. */
  function Continued(a: App, q: Point, ps: seq<Point>): App {
    var segs := Chain([q] + ps, a.pen, a.brush);
    a.(last := Some(([q] + ps)[|ps|]),
       screen := a.screen + segs,
       image := a.image.(lines := a.image.lines + segs))
  }

  /** The first drag sample is handled by `paint`, the rest afterwards. */
  lemma ReplayDrags(a: App, ps: seq<Point>)
    requires ps != []
    ensures Replay(a, Drags(ps)) == Replay(Paint(a, ps[0]), Drags(ps[1..]))
  {
    assert Drags(ps)[0] == Drag(ps[0]);
    assert Drags(ps)[1..] == Drags(ps[1..]);
  }

  /** A chain starting at `q` begins with the segment from `q` to the next point. */
  lemma ChainCons(q: Point, ps: seq<Point>, c: Colour, w: int)
    requires ps != []
    ensures Chain([q] + ps, c, w) == [Segment(q, ps[0], c, w)] + Chain(ps, c, w)
  {
    assert ([q] + ps)[1..] == ps;
  }

  /** Continuing from `q` through `ps` is one `paint` to `ps[0]` and then continuing from there. */
  lemma ContinuedStep(a: App, q: Point, ps: seq<Point>)
    requires a.last == Some(q) && ps != []
    ensures Continued(Paint(a, ps[0]), ps[0], ps[1..]) == Continued(a, q, ps)
  {
    var s := Segment(q, ps[0], a.pen, a.brush);
    var a1 := Paint(a, ps[0]);
    assert [ps[0]] + ps[1..] == ps;
    ChainCons(q, ps, a.pen, a.brush);
    var rest := Chain(ps, a.pen, a.brush);
    assert a1.screen == a.screen + [s] && a1.image.lines == a.image.lines + [s];
    assert a.screen + [s] + rest == a.screen + ([s] + rest);
    assert a.image.lines + [s] + rest == a.image.lines + ([s] + rest);
  }

  /** Drag samples while a last point `q` is held extend the stroke from `q`. */
  lemma {:induction false} DragsFromPoint(a: App, q: Point, ps: seq<Point>)
    requires a.last == Some(q)
    ensures Replay(a, Drags(ps)) == Continued(a, q, ps)
    decreases |ps|
  {
    if ps == [] {
      assert Chain([q], a.pen, a.brush) == [];
    } else {
      ReplayDrags(a, ps);
      DragsFromPoint(Paint(a, ps[0]), ps[0], ps[1..]);
      ContinuedStep(a, q, ps);
    }
  }

  /**
    A stroke of N ≥ 1 drag samples that starts with no last point commits exactly
    the N − 1 segments joining consecutive samples, in the pen colour and brush
    size of the moment, to both the canvas and the bitmap; nothing earlier changes
    and the last sample is remembered.
   */
  lemma StrokeSegments(a: App, ps: seq<Point>)
    requires a.last == None && |ps| >= 1
    ensures var r := Replay(a, Drags(ps));
      && r.screen == a.screen + Chain(ps, a.pen, a.brush)
      && r.image == a.image.(lines := a.image.lines + Chain(ps, a.pen, a.brush))
      && |r.screen| == |a.screen| + |ps| - 1
      && r.last == Some(ps[|ps| - 1])
      && r.pen == a.pen && r.brush == a.brush
  {
    var a1 := Paint(a, ps[0]);
    assert a1 == a.(last := Some(ps[0]));
    ReplayDrags(a, ps);
    DragsFromPoint(a1, ps[0], ps[1..]);
    var c := Continued(a1, ps[0], ps[1..]);
    assert [ps[0]] + ps[1..] == ps;
    var segs := Chain(ps, a.pen, a.brush);
    assert c.screen == a.screen + segs && c.image.lines == a.image.lines + segs;
    assert c.last == Some(ps[|ps| - 1]);
  }

  /** A stroke followed by its release leaves the N − 1 segments and no last point. */
  lemma StrokeThenRelease(a: App, ps: seq<Point>)
    requires a.last == None && |ps| >= 1
    ensures var r := Replay(a, Drags(ps) + [Release]);
      && r.last == None && r.pen == a.pen && r.brush == a.brush
      && r.screen == a.screen + Chain(ps, a.pen, a.brush)
      && r.image.lines == a.image.lines + Chain(ps, a.pen, a.brush)
  {
    ReplayAppend(a, Drags(ps), [Release]);
    StrokeSegments(a, ps);
  }

  /** A release between two strokes means no segment joins the end of one to the start of the next. */
  lemma TwoStrokes(a: App, ps: seq<Point>, qs: seq<Point>)
    requires a.last == None && |ps| >= 1 && |qs| >= 1
    ensures Replay(a, Drags(ps) + [Release] + Drags(qs)).screen
      == a.screen + Chain(ps, a.pen, a.brush) + Chain(qs, a.pen, a.brush)
    ensures Replay(a, Drags(ps) + [Release] + Drags(qs)).image.lines
      == a.image.lines + Chain(ps, a.pen, a.brush) + Chain(qs, a.pen, a.brush)
  {
    ReplayAppend(a, Drags(ps) + [Release], Drags(qs));
    StrokeThenRelease(a, ps);
    var b := Replay(a, Drags(ps) + [Release]);
    StrokeSegments(b, qs);
    assert a.screen + Chain(ps, a.pen, a.brush) + Chain(qs, a.pen, a.brush)
      == b.screen + Chain(qs, b.pen, b.brush);
    assert a.image.lines + Chain(ps, a.pen, a.brush) + Chain(qs, a.pen, a.brush)
      == b.image.lines + Chain(qs, b.pen, b.brush);
  }

  /**
    Picking a colour or choosing a size in the middle of a stroke does not break
    it: the segments drawn before keep the old colour and width, the segment
    bridging the change and those after use the new ones.
   */
  lemma MidStrokeToolChange(a: App, ps: seq<Point>, e: Event, qs: seq<Point>)
    requires a.last == None && |ps| >= 1
    requires e.PickColour? || e.SelectSize?
    ensures var b := Step(Replay(a, Drags(ps)), e);
      Replay(a, Drags(ps) + [e] + Drags(qs)).screen
        == a.screen + Chain(ps, a.pen, a.brush) + Chain([ps[|ps| - 1]] + qs, b.pen, b.brush)
    ensures var b := Step(Replay(a, Drags(ps)), e);
      Replay(a, Drags(ps) + [e] + Drags(qs)).image.lines
        == a.image.lines + Chain(ps, a.pen, a.brush) + Chain([ps[|ps| - 1]] + qs, b.pen, b.brush)
  {
    var m := Replay(a, Drags(ps));
    StrokeSegments(a, ps);
    ReplayAppend(a, Drags(ps), [e]);
    ReplayAppend(a, Drags(ps) + [e], Drags(qs));
    var b := Step(m, e);
    assert b.last == Some(ps[|ps| - 1]) && b.screen == m.screen && b.image == m.image;
    assert Replay(a, Drags(ps) + [e]) == b;
    DragsFromPoint(b, ps[|ps| - 1], qs);
  }

  /** Without a clear, drawing only adds: the earlier canvas content is a prefix of the later. */
  lemma {:induction false} NoClearKeepsDrawing(a: App, evs: seq<Event>)
    requires forall i :: 0 <= i < |evs| ==> !evs[i].Clear?
    ensures a.screen <= Replay(a, evs).screen
    ensures a.image.lines <= Replay(a, evs).image.lines
    decreases |evs|
  {
    if evs != [] {
      var a1 := Step(a, evs[0]);
      assert a.screen <= a1.screen && a.image.lines <= a1.image.lines;
      NoClearKeepsDrawing(a1, evs[1..]);
    }
  }
}
